=== FILE: README.md ===
# git-file tracker core in Dafny

git-file tracks single files taken from other git repositories. A tracked
file is an entry in the INI configuration `.git-file`, which sits at the root
of the enclosing repository. The entry is a section named by the file's local
path. It holds three keys: `remote` (the repository URI), `file_path` (the
path inside that repository) and `sha` (the commit the local copy came from).
Three operations change this state:

- `add` clones the remote, picks a revision, copies the file and records the entry;
- `remove` deletes the entry and the local file;
- `pull` re-fetches one entry or all of them at the remote's head and records the new `sha`.

This project models those operations and proves their properties.

Modules:

- `RepoLocator`: the walk from the current directory up to the nearest
  ancestor holding `.git`, and the configuration path beside it.
  - The current directory is an explicit start path.
  - The file system the walk sees is a set of paths.
- `ConfigStore`: the INI registry as an ordered list of sections.
  - Section lookup and `set` act on the first section with a name; `delete` removes every section with it.
  - A configuration that does not load is `[general section]`, as `Ini::new` builds it.
- `RemoteFetcher`: cloning and revision selection.
  - Remotes are values: a head and a map from commit ids to file trees.
  - libgit2's `Oid::from_str` is modelled as it behaves: one to forty hex digits, lower-cased, zero-padded.
  - The `to_uppercase() != "HEAD"` test is ASCII-only.
- `EntryManager`: `add_entry`, `remove_entry`, `pull_entry` and `pull`.
  - Each is a spec function from the disk before to the disk after, with an outcome `Done | Failed(error) | Abort`. `Abort` stands for a `panic!` on the temporary clone directory.
  - Each is also a method of the `Workspace` class. The class updates `files` and `configs` in place, step by step in the source's order, and each method is proved equal to its spec function.
  - Host conditions that make a single step fail are explicit inputs: a local file that cannot be written or removed, a configuration that cannot be written, and a temporary directory that cannot be created or closed. They hold for the whole call, not step by step.
- `EntryProperties`: properties across operations. These include add then remove, remove then pull, uniqueness of entries, pinning to the head, and first-failure stop without rollback.

Behaviour as the code has it, where a plain description of the tool reads differently:

- A pull of an untracked path fails with `EntryMissing`, the "Failed to find entry" error.
- `remove`, and `pull` with a path (through `pull_entry`, file_handling.rs:187-190), refuse an unreadable configuration with ConfigUnreadable. `add` and `pull` without a path read it as an empty one, so a bare `pull` then succeeds and pulls nothing (file_handling.rs:114-117, 259-262).
- An explicit revision is recorded exactly as given when it names a commit (file_handling.rs:80). Only `HEAD` in any letter case, and an absent revision, record the full id of the head commit. An abbreviated id is zero-padded to forty digits and looked up exactly, so in practice it is refused with UnknownCommit. The one non-canonical form that gets recorded is a full forty-digit id with any upper-case hex letter.
- `pull` with a path falls through to pull every entry. See Findings.
- A late failure is not rolled back:
  - an `add` that fails to write the configuration, or panics closing the temporary directory, leaves the copied file in place and untracked;
  - a `remove` that fails to write the configuration has already deleted the file, and the entry stays tracked (file_handling.rs:168-178);
  - a `pull_entry` that fails to write the configuration leaves the new content under the old `sha`; one that panics closing the temporary directory has already written the new `sha`.

## Model

| member | source | states |
|---|---|---|
| RepoLocator.RepoRoot | src/file_handling.rs:5-28 | the result is the nearest ancestor of the start directory (itself included) that holds `.git`, or None when no ancestor up to the root does |
| RepoLocator.NearestRootUnique | src/file_handling.rs:17-23 | the nearest root is unique: two answers that both satisfy the nearest-root property are equal |
| RepoLocator.GetRepoRoot | src/file_handling.rs:13-27 | the `while` loop that climbs `path.parent()` until `.git` exists returns exactly the nearest root |
| RepoLocator.ConfigPathLocatesRoot | src/file_handling.rs:31-44 | the configuration path is None exactly when no ancestor holds `.git`; otherwise it is `.git-file` inside the nearest root |
| RepoLocator.CurrentRepoConfig | src/file_handling.rs:31-44 | the method built on the walk returns that configuration path |
| ConfigStore.Lookup | src/file_handling.rs:119 | `section(name)` finds a section exactly when the name is among the registry's section names |
| ConfigStore.LookupFirst | src/file_handling.rs:192-195 | the properties `section(name)` returns are those of the first section with that name |
| ConfigStore.SetPropLookup | src/file_handling.rs:142-145 | `with_section(name).set(key, value)` gives `name` its old properties (none if untracked) with `key` set to `value`; every other name reads as before |
| ConfigStore.SetPropNames | src/file_handling.rs:142-145 | `set` keeps the order of section names and appends `name` last when it was untracked |
| ConfigStore.WithoutLookup | src/file_handling.rs:163 | removing a name untracks it and leaves every other name reading as before; the registry shrinks exactly when the name was tracked and is unchanged otherwise |
| ConfigStore.DeleteForgets | src/file_handling.rs:163-166 | `delete` returns None exactly for an untracked name; otherwise the result no longer tracks it, is shorter, and keeps every other name |
| ConfigStore.SetPropAppends | src/file_handling.rs:142-143 | setting the first key of an untracked name appends one section holding only that key |
| ConfigStore.SetPropOnLast | src/file_handling.rs:144-145 | a later `set` on that appended section updates it in place |
| ConfigStore.Track | src/file_handling.rs:142-145 | the three `set` calls of `add` on an untracked name append exactly the entry `{remote, file_path, sha}` |
| ConfigStore.LookupAppended | src/file_handling.rs:142-145 | an entry appended under an untracked name is the one its name then reads |
| ConfigStore.WithoutAppended | src/file_handling.rs:163 | deleting the name of an appended entry gives back the registry it was appended to |
| ConfigStore.SetShaSameExceptSha | src/file_handling.rs:231-232 | setting `sha` of a tracked entry changes no section's name and no key but `sha` |
| ConfigStore.SameExceptShaTransitive | src/file_handling.rs:263-272 | agreeing up to `sha` is transitive, so successive pulls keep it |
| ConfigStore.SameExceptShaKeepsNames | src/file_handling.rs:263-272 | registries that agree up to `sha` have the same names, the same tracked paths, and the same uniqueness |
| ConfigStore.AppendKeepsUnique | src/file_handling.rs:119-121 | appending an entry under an untracked name keeps names unique |
| ConfigStore.WithoutKeepsUnique | src/file_handling.rs:163 | deleting a name keeps names unique and adds no section |
| RemoteFetcher.ParseOid | src/file_handling.rs:64-67 | a token parses exactly when it is one to forty hex digits; the id is canonical (forty lower-case hex digits): the lower-cased token followed by `0` padding; a canonical id parses to itself |
| RemoteFetcher.SelectRevision | src/file_handling.rs:61-92 | a non-HEAD token fails with InvalidObjectId or UnknownCommit and otherwise checks out that commit, reporting the token as given; no token or HEAD succeeds exactly when the head commit exists, reporting its id, and otherwise fails with HeadUnresolved |
| RemoteFetcher.Fetch | src/file_handling.rs:47-98 | an unknown remote fails with CloneFailed; selection errors pass through; success holds exactly when the path is in the selected tree, and the content is the file there |
| RemoteFetcher.IsHeadTokenIgnoresCase | src/file_handling.rs:63 | a token is read as HEAD exactly when it has four characters that lower-case to `head`, in any mix of cases |
| RemoteFetcher.HeadSpellings | src/file_handling.rs:63 | corollary of IsHeadTokenIgnoresCase: "HEAD", "head" and "Head" all select the head |
| RemoteFetcher.OidIsNotHeadToken | src/file_handling.rs:63-64 | a token that parses as an object id is never read as HEAD |
| RemoteFetcher.SelectionIsReproducible | src/file_handling.rs:80-91 | on a well-formed remote, the reported id is never a HEAD spelling, and selecting it again checks out the same files |
| EntryManager.Save | src/file_handling.rs:146-149 | writing the configuration succeeds exactly when the configuration is writable; it then holds the written registry and nothing else changes; otherwise it fails with WriteFailed and changes nothing |
| EntryManager.FetchInto | src/file_handling.rs:93-97 | the copy succeeds exactly when the fetch succeeds and the local file is writable; it then writes the fetched content to `local` and nothing else; a failure changes nothing |
| EntryManager.AddContract | src/file_handling.rs:101-150 | `add` refuses, in this order and changing nothing, an existing local file, a missing repository and an already tracked path. On success the file holds the fetched content and the registry (empty if unloadable) gains exactly the new entry at its end. A configuration changes only on success |
| EntryManager.AddOutcomes | src/file_handling.rs:111-150 | past the refusals, `add` aborts when the temporary directory cannot be made, passes a fetch error on unchanged, fails with a copy error on an unwritable local file; after the copy it aborts when the temporary directory cannot be closed and fails with WriteFailed on a read-only configuration, both leaving the copied file untracked; otherwise it succeeds |
| EntryManager.RemoveContract | src/file_handling.rs:153-179 | `remove` refuses, in this order and changing nothing, a missing repository, an unreadable configuration and an untracked path. It never aborts. A tracked path with a locked local file fails with RemoveFailed and changes nothing. Otherwise a read-only configuration fails with WriteFailed after the file is deleted, the entry still tracked; anything else succeeds, with the file gone and every section named by the path deleted |
| EntryManager.PullEntryContract | src/file_handling.rs:182-244 | `pull_entry` refuses, changing nothing: a missing repository, an unreadable configuration, a missing entry, and a missing `remote` or `file_path` key. Past those: the temporary directory failing to be made aborts, a fetch error passes through, and a locked file fails with a copy error, all changing nothing. After the copy, a read-only configuration fails with WriteFailed, leaving the new content under the old `sha`; a temporary directory failing to close aborts after the `sha` is written; otherwise it succeeds. On success the file holds the content at the remote's head and only the entry's `sha` is set, to the head's id |
| EntryManager.PullEntryFrame | src/file_handling.rs:219-237 | however `pull_entry` ends, it changes only `local`'s file and its `sha`. No other file, no other entry and no other key changes, and a failure leaves the configurations as they were |
| EntryManager.PullEachTouchesOnlySha | src/file_handling.rs:263-272 | the loop over sections changes no configuration except `sha` values |
| EntryManager.PullTouchesOnlySha | src/file_handling.rs:247-275 | `pull`, with or without a path, changes no configuration except `sha` values |
| EntryManager.Workspace.WriteConfig | src/file_handling.rs:146-149 | the in-place configuration write agrees with Save |
| EntryManager.Workspace.GetFileFromRemote | src/file_handling.rs:47-98 | the in-place fetch and copy agree with FetchInto |
| EntryManager.Workspace.AddEntry | src/file_handling.rs:101-150 | the step-by-step `add_entry` leaves the state and outcome that AddSpec gives |
| EntryManager.Workspace.RemoveEntry | src/file_handling.rs:153-179 | the step-by-step `remove_entry` leaves the state and outcome that RemoveSpec gives |
| EntryManager.Workspace.PullEntry | src/file_handling.rs:182-244 | the step-by-step `pull_entry` leaves the state and outcome that PullEntrySpec gives |
| EntryManager.Workspace.Pull | src/file_handling.rs:247-275 | the `for` loop of `pull` leaves the state and outcome that PullSpec gives. Its invariant says that the rest of the loop from the current state ends where the whole loop from the loaded state would |
| EntryManager.Workspace.PullDocumented | src/file_handling.rs:247-253 | the corrected `pull` (one entry when a path is given) agrees with PullIntended |
| EntryProperties.AddPinsRevision | src/file_handling.rs:142-145 | after a successful `add` the entry holds exactly `remote`, `file_path` and `sha`. The `sha` is the explicit revision as given, or the head's id for no revision or HEAD |
| EntryProperties.SecondAddRefused | src/file_handling.rs:107-109 | adding the same local path again is refused with AlreadyExists and changes nothing |
| EntryProperties.RemoveAppended | src/file_handling.rs:163-178 | removing the entry last appended to a registry restores that registry and deletes the file |
| EntryProperties.AddThenRemoveRestores | src/file_handling.rs:300-326 | `remove` after a successful `add` restores the files and the registry `add` started from; an unloadable configuration is written back as an empty one |
| EntryProperties.PullUnreadableConfig | src/file_handling.rs:247-272 | for a configuration that does not load, `pull` with a path fails with ConfigUnreadable and changes nothing, and `pull` without one succeeds and changes nothing |
| EntryProperties.RemoveThenPullFails | src/file_handling.rs:192-195 | after a successful `remove`, pulling that path fails with EntryMissing and changes nothing |
| EntryProperties.AddKeepsUnique | src/file_handling.rs:119-121 | `add` keeps every configuration free of duplicate entries |
| EntryProperties.RemoveKeepsUnique | src/file_handling.rs:163 | `remove` keeps every configuration free of duplicate entries |
| EntryProperties.PullKeepsUnique | src/file_handling.rs:247-275 | `pull` keeps every configuration free of duplicate entries |
| EntryProperties.PullEntryPins | src/file_handling.rs:219-232 | a successful `pull_entry` pins its entry to the head: the `sha` is the head's id and the file is the head's content |
| EntryProperties.PullEntryKeepsPinned | src/file_handling.rs:231-237 | `pull_entry` of one path, however it ends, leaves any other pinned entry pinned |
| EntryProperties.PullEachKeepsPinned | src/file_handling.rs:263-272 | a successful pull loop leaves pinned entries pinned |
| EntryProperties.PullEachPins | src/file_handling.rs:263-272 | a successful pull loop pins every entry it visits |
| EntryProperties.PullAllPinsHead | src/file_handling.rs:259-275 | a successful `pull` of everything pins every tracked entry to its remote's current head, never a previously recorded `sha` |
| EntryProperties.PullOnePinsHead | src/file_handling.rs:305-321 | a successful `pull` of one path pins that entry to the head, whatever revision `add` recorded |
| EntryProperties.PullStopsAtFirstFailure | src/file_handling.rs:263-272 | a failed pull loop stopped at some named entry: every entry before it ended in Done, and the result is exactly that entry's pull applied after them |
| EntryProperties.PullFailureKeepsEarlier | src/file_handling.rs:263-272 | when the loop fails, entries pulled before the failing one stay pinned; nothing is rolled back |
| EntryProperties.PullOneFallsThrough | src/file_handling.rs:248-253 | a concrete repository in which `pull` of `a` fails on another entry `b`, while pulling only `a` succeeds |
| EntryProperties.PullIntendedTouchesOnlyIt | src/file_handling.rs:248-253 | the corrected `pull` of one path changes no other file and no other entry, and on success pins that entry to the head |

## Left out

- The `to_str()` conversions of paths (file_handling.rs:7-11, 24-27, 38-41, 130-133, 212-215). Their failures (non-UTF-8 paths) are not modelled, because paths here are sequences of strings.
- `checkout_tree` and `set_head_detached` (file_handling.rs:72-79) are assumed to succeed for a commit that exists. Their failures stem from on-disk conditions of the clone that the model has no counterpart for.
- `to_uppercase()` is modelled on ASCII letters only. Unicode case mapping is not modelled.
- Error message texts and the `file_id` strings are left out. Each error is a datatype variant instead.
- The temporary clone directory's content and its cleanup are left out. Only the failures to create or close it are modelled, as `Abort`.
- Local file paths are keys of a map, separate from the paths the repository walk sees and from the configuration files (including `.git-file` and `.git` themselves). So a local path that names the configuration, such as `add` of `.git-file` at the repository root, is not refused with AlreadyExists as it is in the source (file_handling.rs:107). Relative-path resolution against the current directory is not modelled.
- INI parsing and serialisation are not modelled. A configuration either loads to a registry or does not load at all, and what `write_to_file` then reads back is the registry written.
- The command-line entry in main.rs is not part of this model, including its default local path from `file_stem`.
- The unit test (file_handling.rs:285-327) clones a real repository over the network. Its assertions are stated as AddThenRemoveRestores and PullOnePinsHead.
- The network and libgit2 are values: a remote is its head and its commits' file trees.
- ConfigStore.Lookup: its own contract states only when a section is found. Which section's properties it returns is stated by LookupFirst, a separate lemma.
- The remote path is a key of the selected commit's file tree. The source joins it to the clone directory (file_handling.rs:93), so a path that names a file of the clone's working directory under another spelling copies it: `./f`, `a//b`, or a file under `.git/`. An absolute path or one with `..` copies a file from outside the clone. The model gives CopyFailed for every such path instead.
- EntryManager.PullEach and EntryManager.PullSpec carry no contract of their own. What they do is stated by PullEachTouchesOnlySha, PullEachPins, PullEachKeepsPinned, PullStopsAtFirstFailure, PullTouchesOnlySha, PullAllPinsHead and PullOnePinsHead.
- The host, its faults and its remotes are fixed for a whole call. In a bulk `pull`, a read-only configuration or a failing temporary directory fails the first entry that reaches that step, so the model cannot express a failure that starts at a later entry: a configuration write failing at entry k after entry k's file was overwritten and earlier entries were persisted (file_handling.rs:231-237, 264-269), a close panic at entry k, or a remote that served an earlier entry becoming unreachable for a later one. PullStopsAtFirstFailure and PullFailureKeepsEarlier hold for whatever outcome the failing entry has.

## Findings

| source | as written | input that shows it | evidently intended | confidence | as-written member | corrected member |
|---|---|---|---|---|---|---|
| src/file_handling.rs:248-253 | `pull` with a path pulls that entry and then falls through to pull every entry of the configuration, that one again included, so another entry's failure fails the call | a configuration tracking `a` from a reachable remote, plus a section `b` with no `remote` key: `pull(Some("a"))` ends in RemoteKeyMissing("b") | with a path, pull only that entry (the `pull [local_file_path]` subcommand, main.rs:10 and 67-71) | high, not executed | EntryProperties.PullOneFallsThrough | EntryManager.Workspace.PullDocumented |

=== FILE: config_store.dfy ===
/**
 * The tracking registry as the INI configuration holds it: an ordered list
 * of sections, each with an optional name (the unnamed one is the general
 * section) and its key/value properties.  A tracked file is the section
 * named by its local path, with keys `remote`, `file_path` and `sha`.
 * Lookup and update act on the first section with the name; deletion
 * removes every section with the name.
 */
module ConfigStore {
  import opened Wrappers

  type Props = map<string, string>

  datatype Section = Section(name: Option<string>, props: Props)

  type Registry = seq<Section>

  const RemoteKey := "remote"
  const FilePathKey := "file_path"
  const ShaKey := "sha"

  /** A configuration that did not load: only the empty general section. */
  const Fresh: Registry := [Section(None, map[])]

  /** The section names in order (`None` for the general section). */
  function Names(reg: Registry): (names: seq<Option<string>>)
    ensures |names| == |reg|
    ensures forall i :: 0 <= i < |reg| ==> names[i] == reg[i].name
  {
    if reg == [] then [] else [reg[0].name] + Names(reg[1..])
  }

  /** The properties of the first section named `name`. */
  function Lookup(reg: Registry, name: string): (props: Option<Props>)
    ensures props.Some? <==> Some(name) in Names(reg)
  {
    if reg == [] then None
    else if reg[0].name == Some(name) then Some(reg[0].props)
    else Lookup(reg[1..], name)
  }

  /** The properties `Lookup` returns are those of the first section with the name. */
  lemma {:induction false} LookupFirst(reg: Registry, name: string, i: nat)
    requires i < |reg| && reg[i].name == Some(name)
    requires forall j :: 0 <= j < i ==> reg[j].name != Some(name)
    ensures Lookup(reg, name) == Some(reg[i].props)
  {
    if i > 0 {
      LookupFirst(reg[1..], name, i - 1);
    }
  }

  predicate IsTracked(reg: Registry, name: string) {
    Lookup(reg, name).Some?
  }

  /** Distinct named sections have distinct names. */
  ghost predicate UniqueNames(reg: Registry) {
    forall i, j :: 0 <= i < j < |reg| && reg[i].name.Some? ==> reg[i].name != reg[j].name
  }

  /**
   * Setting `key` to `value` in the section `name`: the first section with
   * that name is updated, or a new section is appended when there is none.
   */
  function SetProp(reg: Registry, name: string, key: string, value: string): Registry
  {
    if reg == [] then [Section(Some(name), map[key := value])]
    else if reg[0].name == Some(name) then [reg[0].(props := reg[0].props[key := value])] + reg[1..]
    else [reg[0]] + SetProp(reg[1..], name, key, value)
  }

  /**
   * After setting a key, `name` holds the properties it held (none when it
   * was untracked) with `key` mapped to `value`, and every other name reads
   * as before.
   */
  lemma {:induction false} SetPropLookup(reg: Registry, name: string, key: string, value: string)
    ensures Lookup(SetProp(reg, name, key, value), name) == Some(Lookup(reg, name).GetOr(map[])[key := value])
    ensures forall n :: n != name ==> Lookup(SetProp(reg, name, key, value), n) == Lookup(reg, n)
  {
    var r := SetProp(reg, name, key, value);
    if reg == [] {
      assert r[0].name == Some(name) && r[1..] == [];
    } else if reg[0].name == Some(name) {
      assert r[0].name == reg[0].name && r[1..] == reg[1..];
    } else {
      SetPropLookup(reg[1..], name, key, value);
      assert r[0] == reg[0] && r[1..] == SetProp(reg[1..], name, key, value);
    }
  }

  /**
   * Setting a key keeps the order of names, with `name` appended last when
   * it was untracked.
   */
  lemma {:induction false} SetPropNames(reg: Registry, name: string, key: string, value: string)
    ensures Names(SetProp(reg, name, key, value))
         == if IsTracked(reg, name) then Names(reg) else Names(reg) + [Some(name)]
  {
    var r := SetProp(reg, name, key, value);
    if reg == [] {
      assert Names(r) == [Some(name)] + Names([]);
    } else if reg[0].name == Some(name) {
      assert Names(r) == [reg[0].name] + Names(reg[1..]);
    } else {
      var rest := SetProp(reg[1..], name, key, value);
      SetPropNames(reg[1..], name, key, value);
      assert r[1..] == rest;
      assert Lookup(reg, name) == Lookup(reg[1..], name);
      if !IsTracked(reg, name) {
        assert Names(r) == [reg[0].name] + (Names(reg[1..]) + [Some(name)]);
        assert [reg[0].name] + (Names(reg[1..]) + [Some(name)]) == Names(reg) + [Some(name)];
      }
    }
  }

  /** Every section named `name` left out, the others kept in order. */
  function Without(reg: Registry, name: string): Registry
  {
    if reg == [] then []
    else if reg[0].name == Some(name) then Without(reg[1..], name)
    else [reg[0]] + Without(reg[1..], name)
  }

  /**
   * Leaving `name` out untracks it and leaves every other name reading as
   * before; it shortens the registry exactly when `name` was tracked, and
   * is the identity otherwise.
   */
  lemma {:induction false} WithoutLookup(reg: Registry, name: string)
    ensures !IsTracked(Without(reg, name), name)
    ensures forall n :: n != name ==> Lookup(Without(reg, name), n) == Lookup(reg, n)
    ensures !IsTracked(reg, name) ==> Without(reg, name) == reg
    ensures |Without(reg, name)| <= |reg|
    ensures |Without(reg, name)| < |reg| <==> IsTracked(reg, name)
  {
    if reg != [] {
      var rest := Without(reg[1..], name);
      WithoutLookup(reg[1..], name);
      if reg[0].name != Some(name) {
        var w := Without(reg, name);
        assert w[0] == reg[0] && w[1..] == rest;
        assert Lookup(reg, name) == Lookup(reg[1..], name);
        if !IsTracked(reg, name) {
          assert [reg[0]] + reg[1..] == reg;
        }
      }
    }
  }

  /** `delete` of the INI library: the registry without `name`, or `None` when it had none. */
  function Delete(reg: Registry, name: string): Option<Registry>
  {
    if IsTracked(reg, name) then Some(Without(reg, name)) else None
  }

  /**
   * `delete` fails exactly on an untracked name; otherwise the result no
   * longer tracks it, is shorter, and reads as before for every other name.
   */
  lemma DeleteForgets(reg: Registry, name: string)
    ensures Delete(reg, name).None? <==> !IsTracked(reg, name)
    ensures Delete(reg, name).Some? ==>
      && !IsTracked(Delete(reg, name).value, name)
      && |Delete(reg, name).value| < |reg|
      && forall n :: n != name ==> Lookup(Delete(reg, name).value, n) == Lookup(reg, n)
  {
    WithoutLookup(reg, name);
  }

  /** The section `add` writes for a newly tracked file. */
  function Entry(local: string, uri: string, remotePath: string, sha: string): Section {
    Section(Some(local), map[RemoteKey := uri, FilePathKey := remotePath, ShaKey := sha])
  }

  /** Sections agree in order, names and every key except `sha`. */
  ghost predicate SameExceptSha(reg: Registry, reg': Registry) {
    && |reg| == |reg'|
    && forall i :: 0 <= i < |reg| ==>
         reg'[i].name == reg[i].name && reg'[i].props - {ShaKey} == reg[i].props - {ShaKey}
  }

  /** Setting a key of a name not yet tracked appends a one-key section. */
  lemma {:induction false} SetPropAppends(reg: Registry, name: string, key: string, value: string)
    requires !IsTracked(reg, name)
    ensures SetProp(reg, name, key, value) == reg + [Section(Some(name), map[key := value])]
  {
    if reg != [] {
      assert reg[0].name != Some(name) && Lookup(reg, name) == Lookup(reg[1..], name);
      SetPropAppends(reg[1..], name, key, value);
      assert [reg[0]] + (reg[1..] + [Section(Some(name), map[key := value])])
          == reg + [Section(Some(name), map[key := value])];
    }
  }

  /** Setting a key of the last section, when that is the only one with its name. */
  lemma {:induction false} SetPropOnLast(reg: Registry, name: string, props: Props, key: string, value: string)
    requires !IsTracked(reg, name)
    ensures SetProp(reg + [Section(Some(name), props)], name, key, value)
         == reg + [Section(Some(name), props[key := value])]
  {
    if reg != [] {
      var s := Section(Some(name), props);
      var whole := reg + [s];
      assert whole[0] == reg[0] && whole[1..] == reg[1..] + [s];
      assert reg[0].name != Some(name) && !IsTracked(reg[1..], name);
      SetPropOnLast(reg[1..], name, props, key, value);
      assert SetProp(whole, name, key, value) == [reg[0]] + SetProp(reg[1..] + [s], name, key, value);
      calc {
        [reg[0]] + SetProp(reg[1..] + [s], name, key, value);
        [reg[0]] + (reg[1..] + [Section(Some(name), props[key := value])]);
        reg + [Section(Some(name), props[key := value])];
      }
    }
  }

  /** The three settings of `add` on an untracked name append exactly its entry. */
  lemma Track(reg: Registry, local: string, uri: string, remotePath: string, sha: string)
    requires !IsTracked(reg, local)
    ensures SetProp(SetProp(SetProp(reg, local, RemoteKey, uri), local, FilePathKey, remotePath), local, ShaKey, sha)
         == reg + [Entry(local, uri, remotePath, sha)]
  {
    SetPropAppends(reg, local, RemoteKey, uri);
    SetPropOnLast(reg, local, map[RemoteKey := uri], FilePathKey, remotePath);
    SetPropOnLast(reg, local, map[RemoteKey := uri, FilePathKey := remotePath], ShaKey, sha);
  }

  /** A section appended under an untracked name is the one its name reads. */
  lemma {:induction false} LookupAppended(reg: Registry, s: Section, name: string)
    requires !IsTracked(reg, name) && s.name == Some(name)
    ensures Lookup(reg + [s], name) == Some(s.props)
  {
    if reg != [] {
      assert (reg + [s])[0] == reg[0] && (reg + [s])[1..] == reg[1..] + [s];
      assert Lookup(reg, name) == Lookup(reg[1..], name);
      LookupAppended(reg[1..], s, name);
    }
  }

  /** Removing the name of an appended section restores the registry it was appended to. */
  lemma {:induction false} WithoutAppended(reg: Registry, s: Section, name: string)
    requires !IsTracked(reg, name) && s.name == Some(name)
    ensures Without(reg + [s], name) == reg
    ensures Delete(reg + [s], name) == Some(reg)
  {
    assert Names(reg + [s])[|reg|] == Some(name);
    if reg != [] {
      var whole := reg + [s];
      assert whole[0] == reg[0] && whole[1..] == reg[1..] + [s];
      assert reg[0].name != Some(name) && !IsTracked(reg[1..], name);
      WithoutAppended(reg[1..], s, name);
      calc {
        Without(whole, name);
        [reg[0]] + Without(reg[1..] + [s], name);
        [reg[0]] + reg[1..];
        reg;
      }
    }
  }

  /** Setting `sha` of a tracked name changes nothing but that value. */
  lemma {:induction false} SetShaSameExceptSha(reg: Registry, name: string, sha: string)
    requires IsTracked(reg, name)
    ensures SameExceptSha(reg, SetProp(reg, name, ShaKey, sha))
  {
    assert reg == [reg[0]] + reg[1..];
    if reg[0].name != Some(name) {
      assert Lookup(reg, name) == Lookup(reg[1..], name);
      SetShaSameExceptSha(reg[1..], name, sha);
      SameExceptShaCons(reg[0], reg[0], reg[1..], SetProp(reg[1..], name, ShaKey, sha));
    } else {
      var s := reg[0].(props := reg[0].props[ShaKey := sha]);
      assert s.props - {ShaKey} == reg[0].props - {ShaKey};
      SameExceptShaCons(reg[0], s, reg[1..], reg[1..]);
    }
  }

  /** Sections that agree but for `sha`, put in front of registries that do, keep them agreeing. */
  lemma SameExceptShaCons(s: Section, s': Section, reg: Registry, reg': Registry)
    requires s'.name == s.name && s'.props - {ShaKey} == s.props - {ShaKey}
    requires SameExceptSha(reg, reg')
    ensures SameExceptSha([s] + reg, [s'] + reg')
  {
    forall i | 0 < i < |reg| + 1
      ensures ([s'] + reg')[i] == reg'[i - 1] && ([s] + reg)[i] == reg[i - 1]
    {
    }
  }

  lemma SameExceptShaTransitive(a: Registry, b: Registry, c: Registry)
    requires SameExceptSha(a, b) && SameExceptSha(b, c)
    ensures SameExceptSha(a, c)
  {
  }

  /** Registries that agree on names agree on which names are tracked and unique. */
  lemma {:induction false} SameExceptShaKeepsNames(reg: Registry, reg': Registry)
    requires SameExceptSha(reg, reg')
    ensures Names(reg') == Names(reg)
    ensures UniqueNames(reg) ==> UniqueNames(reg')
    ensures forall n :: IsTracked(reg, n) <==> IsTracked(reg', n)
  {
  }

  /** Appending a section under a name not yet tracked keeps names unique. */
  lemma AppendKeepsUnique(reg: Registry, s: Section, name: string)
    requires UniqueNames(reg) && !IsTracked(reg, name) && s.name == Some(name)
    ensures UniqueNames(reg + [s])
  {
    forall i | 0 <= i < |reg|
      ensures reg[i].name != Some(name)
    {
      assert Names(reg)[i] == reg[i].name;
    }
  }

  /** Leaving a name out keeps the remaining names unique. */
  lemma {:induction false} WithoutKeepsUnique(reg: Registry, name: string)
    requires UniqueNames(reg)
    ensures UniqueNames(Without(reg, name))
    ensures forall s :: s in Without(reg, name) ==> s in reg
  {
    if reg != [] {
      WithoutKeepsUnique(reg[1..], name);
      if reg[0].name != Some(name) {
        var rest := Without(reg[1..], name);
        forall j | 0 <= j < |rest| && reg[0].name.Some?
          ensures rest[j].name != reg[0].name
        {
          assert rest[j] in reg[1..];
        }
      }
    }
  }
}

=== FILE: entry_manager.dfy ===
/**
 * The three operations of the tracker -- add, remove and pull -- over an
 * abstract host.  Each operation is specified by a function from the disk
 * before to the disk after and the outcome, and implemented by a method of
 * `Workspace`, which updates the working files and configuration files in
 * place, step by step as the source does, and is proved to agree with it.
 */
module EntryManager {
  import opened Wrappers
  import opened Errors
  import opened RepoLocator
  import opened ConfigStore
  import opened RemoteFetcher

  /** Conditions of the host under which single steps fail. */
  datatype Faults = Faults(
    lockedFiles: set<string>,  // local paths that cannot be written or removed
    configReadOnly: bool,      // the configuration file cannot be written
    tempCreateFails: bool,     // no temporary clone directory can be created
    tempCloseFails: bool)      // a temporary clone directory cannot be removed

  /**
   * What the operations read and never change: the start directory, the
   * paths the repository-root walk can see, the remotes and the faults.
   */
  datatype Host = Host(start: Path, tree: set<Path>, remotes: map<string, Repo>, faults: Faults)

  /**
   * What the operations change: the working files by local path, and the
   * configuration files that load, by path.  A configuration path missing
   * from `configs` is a file that is absent or does not parse.
   */
  datatype Disk = Disk(files: map<string, Bytes>, configs: map<Path, Registry>)

  /** The registry as `add` and `pull` read it: a configuration that does not load is empty. */
  function LoadOrFresh(d: Disk, config: Path): Registry {
    if config in d.configs then d.configs[config] else Fresh
  }

  /** Writing the configuration file. */
  function Save(h: Host, d: Disk, config: Path, reg: Registry): (r: (Disk, Outcome))
    ensures r.1 == Done <==> !h.faults.configReadOnly
    ensures r.1 == Done ==> r.0 == d.(configs := d.configs[config := reg])
    ensures r.1 != Done ==> r == (d, Failed(WriteFailed))
  {
    if h.faults.configReadOnly then (d, Failed(WriteFailed))
    else (d.(configs := d.configs[config := reg]), Done)
  }

  /**
   * Fetching a remote file into the local tree: on success the local file
   * holds the file's content at the selected revision, and the id of that
   * revision is returned; on failure nothing changes.
   */
  function FetchInto(h: Host, d: Disk, uri: string, remotePath: string, local: string, token: Option<string>)
    : (r: (Disk, Result<string, Error>))
    ensures r.1.Success? <==> Fetch(h.remotes, uri, remotePath, token).Success? && local !in h.faults.lockedFiles
    ensures r.1.Success? ==>
      var f := Fetch(h.remotes, uri, remotePath, token).value;
      r.1.value == f.sha && r.0 == d.(files := d.files[local := f.content])
    ensures r.1.Failure? ==> r.0 == d
  {
    match Fetch(h.remotes, uri, remotePath, token)
    case Failure(e) => (d, Failure(e))
    case Success(f) =>
      if local in h.faults.lockedFiles then (d, Failure(CopyFailed(remotePath)))
      else (d.(files := d.files[local := f.content]), Success(f.sha))
  }

  /**
   * `add`: track the remote file under `local`.  An existing local file is
   * never overwritten and an existing entry never replaced; the registry
   * changes only on full success, when it gains exactly the new entry.
   */
  function AddSpec(h: Host, d: Disk, uri: string, remotePath: string, token: Option<string>, local: string)
    : (Disk, Outcome)
  {
    if local in d.files then (d, Failed(AlreadyExists(local)))
    else match ConfigPath(h.start, h.tree)
      case None => (d, Failed(NoRepository))
      case Some(config) =>
        var reg := LoadOrFresh(d, config);
        if IsTracked(reg, local) then (d, Failed(AlreadyTracked(local)))
        else if h.faults.tempCreateFails then (d, Abort)
        else
          var fetched := FetchInto(h, d, uri, remotePath, local, token);
          if fetched.1.Failure? then (fetched.0, Failed(fetched.1.error))
          else if h.faults.tempCloseFails then (fetched.0, Abort)
          else
            var sha := fetched.1.value;
            Save(h, fetched.0, config,
                 SetProp(SetProp(SetProp(reg, local, RemoteKey, uri), local, FilePathKey, remotePath), local, ShaKey, sha))
  }

  /**
   * How `add` ends: an existing local file, a missing repository and an
   * existing entry are refused in that order with nothing changed; the
   * registry changes only on full success, when it gains exactly the new
   * entry and the fetched content lands at `local`.
   */
  lemma AddContract(h: Host, d: Disk, uri: string, remotePath: string, token: Option<string>, local: string)
    ensures var r := AddSpec(h, d, uri, remotePath, token, local);
      && (local in d.files ==> r == (d, Failed(AlreadyExists(local))))
      && (local !in d.files && ConfigPath(h.start, h.tree).None? ==> r == (d, Failed(NoRepository)))
      && (local !in d.files && ConfigPath(h.start, h.tree).Some?
          && IsTracked(LoadOrFresh(d, ConfigPath(h.start, h.tree).value), local) ==>
            r == (d, Failed(AlreadyTracked(local))))
      && (r.1 != Done ==> r.0.configs == d.configs)
      && (r.1.Failed? && r.1.error != WriteFailed ==> r.0 == d)
    ensures var r := AddSpec(h, d, uri, remotePath, token, local);
      r.1 == Done ==>
        && local !in d.files
        && local !in h.faults.lockedFiles && !h.faults.configReadOnly
        && ConfigPath(h.start, h.tree).Some?
        && Fetch(h.remotes, uri, remotePath, token).Success?
        && var config := ConfigPath(h.start, h.tree).value;
           var f := Fetch(h.remotes, uri, remotePath, token).value;
           r.0 == Disk(d.files[local := f.content],
                       d.configs[config := LoadOrFresh(d, config) + [Entry(local, uri, remotePath, f.sha)]])
  {
    if local !in d.files && ConfigPath(h.start, h.tree).Some? {
      var config := ConfigPath(h.start, h.tree).value;
      var reg := LoadOrFresh(d, config);
      var fetched := FetchInto(h, d, uri, remotePath, local, token);
      if !IsTracked(reg, local) && fetched.1.Success? {
        Track(reg, local, uri, remotePath, fetched.1.value);
      }
    }
  }

  /**
   * What `add` does once the path is known to be new: a temporary directory
   * that cannot be made aborts, a fetch error is passed on, a locked
   * destination is a copy error, and a late failure (closing the temporary
   * directory, writing the configuration) leaves the copied file behind
   * untracked.
   */
  lemma AddOutcomes(h: Host, d: Disk, uri: string, remotePath: string, token: Option<string>, local: string)
    ensures var r := AddSpec(h, d, uri, remotePath, token, local);
      local !in d.files && ConfigPath(h.start, h.tree).Some?
      && !IsTracked(LoadOrFresh(d, ConfigPath(h.start, h.tree).value), local) ==>
        var f := Fetch(h.remotes, uri, remotePath, token);
        && (h.faults.tempCreateFails ==> r == (d, Abort))
        && (!h.faults.tempCreateFails && f.Failure? ==> r == (d, Failed(f.error)))
        && (!h.faults.tempCreateFails && f.Success? && local in h.faults.lockedFiles ==>
              r == (d, Failed(CopyFailed(remotePath))))
        && (!h.faults.tempCreateFails && f.Success? && local !in h.faults.lockedFiles ==>
              var copied := d.(files := d.files[local := f.value.content]);
              && (h.faults.tempCloseFails ==> r == (copied, Abort))
              && (!h.faults.tempCloseFails && h.faults.configReadOnly ==> r == (copied, Failed(WriteFailed)))
              && (!h.faults.tempCloseFails && !h.faults.configReadOnly ==> r.1 == Done))
  {
    if local !in d.files && ConfigPath(h.start, h.tree).Some? {
      var reg := LoadOrFresh(d, ConfigPath(h.start, h.tree).value);
      var fetched := FetchInto(h, d, uri, remotePath, local, token);
      if !IsTracked(reg, local) && fetched.1.Success? {
        Track(reg, local, uri, remotePath, fetched.1.value);
      }
    }
  }

  /**
   * `remove`: stop tracking `local` and delete its file.  A configuration
   * that does not load is an error here; an untracked path changes nothing.
   */
  function RemoveSpec(h: Host, d: Disk, local: string): (Disk, Outcome)
  {
    match ConfigPath(h.start, h.tree)
    case None => (d, Failed(NoRepository))
    case Some(config) =>
      if config !in d.configs then (d, Failed(ConfigUnreadable))
      else match Delete(d.configs[config], local)
        case None => (d, Failed(NotTracked(local)))
        case Some(reg) =>
          if local in d.files && local in h.faults.lockedFiles then (d, Failed(RemoveFailed(local)))
          else Save(h, d.(files := d.files - {local}), config, reg)
  }

  /**
   * How `remove` ends: a missing repository, an unreadable configuration and
   * an untracked path are refused in that order with nothing changed; it
   * never aborts, and on success the file and every section named `local`
   * are gone while everything else stays.
   */
  lemma RemoveContract(h: Host, d: Disk, local: string)
    ensures var r := RemoveSpec(h, d, local);
      && (ConfigPath(h.start, h.tree).None? ==> r == (d, Failed(NoRepository)))
      && (ConfigPath(h.start, h.tree).Some? && ConfigPath(h.start, h.tree).value !in d.configs ==>
            r == (d, Failed(ConfigUnreadable)))
      && (ConfigPath(h.start, h.tree).Some? && ConfigPath(h.start, h.tree).value in d.configs
          && !IsTracked(d.configs[ConfigPath(h.start, h.tree).value], local) ==>
            r == (d, Failed(NotTracked(local))))
      && r.1 != Abort
      && (r.1 != Done ==> r.0.configs == d.configs)
    ensures var r := RemoveSpec(h, d, local);
      r.1 == Done ==>
        && ConfigPath(h.start, h.tree).Some?
        && var config := ConfigPath(h.start, h.tree).value;
           && config in d.configs
           && IsTracked(d.configs[config], local)
           && r.0 == Disk(d.files - {local}, d.configs[config := Without(d.configs[config], local)])
    ensures var r := RemoveSpec(h, d, local);
      ConfigPath(h.start, h.tree).Some? && ConfigPath(h.start, h.tree).value in d.configs
      && IsTracked(d.configs[ConfigPath(h.start, h.tree).value], local) ==>
        && (local in d.files && local in h.faults.lockedFiles ==> r == (d, Failed(RemoveFailed(local))))
        && (!(local in d.files && local in h.faults.lockedFiles) ==>
              && (h.faults.configReadOnly ==> r == (d.(files := d.files - {local}), Failed(WriteFailed)))
              && (!h.faults.configReadOnly ==> r.1 == Done))
  {
  }

  /**
   * `pull_entry`: re-fetch `local` at the head of its remote and record the
   * head's id as its `sha`; no other key and no other entry changes.
   */
  function PullEntrySpec(h: Host, d: Disk, local: string): (Disk, Outcome)
  {
    match ConfigPath(h.start, h.tree)
    case None => (d, Failed(NoRepository))
    case Some(config) =>
      if config !in d.configs then (d, Failed(ConfigUnreadable))
      else
        var reg := d.configs[config];
        match Lookup(reg, local)
        case None => (d, Failed(EntryMissing(local)))
        case Some(props) =>
          if RemoteKey !in props then (d, Failed(RemoteKeyMissing(local)))
          else if FilePathKey !in props then (d, Failed(FilePathKeyMissing(local)))
          else if h.faults.tempCreateFails then (d, Abort)
          else
            var fetched := FetchInto(h, d, props[RemoteKey], props[FilePathKey], local, Some(HeadToken));
            if fetched.1.Failure? then (fetched.0, Failed(fetched.1.error))
            else
              var saved := Save(h, fetched.0, config, SetProp(reg, local, ShaKey, fetched.1.value));
              if saved.1 != Done then saved
              else if h.faults.tempCloseFails then (saved.0, Abort)
              else saved
  }

  /**
   * What `pull_entry` may change, however it ends: the file at `local`, and
   * in the configurations only the `sha` of `local`'s section; a failure
   * leaves every configuration as it was.
   */
  lemma PullEntryFrame(h: Host, d: Disk, local: string)
    ensures var r := PullEntrySpec(h, d, local);
      && (r.1.Failed? ==> r.0.configs == d.configs)
      && r.0.configs.Keys == d.configs.Keys
      && r.0.files - {local} == d.files - {local}
    ensures var r := PullEntrySpec(h, d, local);
      forall p :: p in d.configs ==> SameExceptSha(d.configs[p], r.0.configs[p])
    ensures var r := PullEntrySpec(h, d, local);
      forall p, n :: p in d.configs && n != local ==> Lookup(r.0.configs[p], n) == Lookup(d.configs[p], n)
  {
    var r := PullEntrySpec(h, d, local);
    if ConfigPath(h.start, h.tree).Some? && ConfigPath(h.start, h.tree).value in d.configs {
      var config := ConfigPath(h.start, h.tree).value;
      var reg := d.configs[config];
      var props := Lookup(reg, local);
      if props.Some? && RemoteKey in props.value && FilePathKey in props.value && !h.faults.tempCreateFails {
        var fetched := FetchInto(h, d, props.value[RemoteKey], props.value[FilePathKey], local, Some(HeadToken));
        if fetched.1.Success? && !h.faults.configReadOnly {
          var reg' := SetProp(reg, local, ShaKey, fetched.1.value);
          assert r.0 == Disk(d.files[local := fetched.0.files[local]], d.configs[config := reg']);
          assert r.0.files - {local} == d.files - {local} by {
            forall f | f in d.files - {local} ensures f in r.0.files && r.0.files[f] == d.files[f] {}
          }
          SetShaSameExceptSha(reg, local, fetched.1.value);
          SetPropLookup(reg, local, ShaKey, fetched.1.value);
          forall p | p in d.configs
            ensures SameExceptSha(d.configs[p], r.0.configs[p])
            ensures forall n :: n != local ==> Lookup(r.0.configs[p], n) == Lookup(d.configs[p], n)
          {
            if p != config {
              assert r.0.configs[p] == d.configs[p];
            }
          }
        } else {
          assert r.0.configs == d.configs;
          assert r.0.files - {local} == d.files - {local} by {
            forall f | f in d.files - {local} ensures f in r.0.files && r.0.files[f] == d.files[f] {}
          }
        }
      }
    }
  }

  /**
   * How `pull_entry` ends: each missing piece of the configuration is its
   * own error with nothing changed, and success records the head's id.
   */
  lemma PullEntryContract(h: Host, d: Disk, local: string)
    ensures ConfigPath(h.start, h.tree).None? ==> PullEntrySpec(h, d, local) == (d, Failed(NoRepository))
    ensures ConfigPath(h.start, h.tree).Some? && ConfigPath(h.start, h.tree).value !in d.configs ==>
              PullEntrySpec(h, d, local) == (d, Failed(ConfigUnreadable))
    ensures ConfigPath(h.start, h.tree).Some? && ConfigPath(h.start, h.tree).value in d.configs ==>
      var props := Lookup(d.configs[ConfigPath(h.start, h.tree).value], local);
      var r := PullEntrySpec(h, d, local);
      && (props.None? ==> r == (d, Failed(EntryMissing(local))))
      && (props.Some? && RemoteKey !in props.value ==> r == (d, Failed(RemoteKeyMissing(local))))
      && (props.Some? && RemoteKey in props.value && FilePathKey !in props.value ==>
            r == (d, Failed(FilePathKeyMissing(local))))
    ensures PullEntrySpec(h, d, local).1 == Done ==>
      && ConfigPath(h.start, h.tree).Some?
      && var config := ConfigPath(h.start, h.tree).value;
         && config in d.configs
         && Lookup(d.configs[config], local).Some?
         && var props := Lookup(d.configs[config], local).value;
            && RemoteKey in props && FilePathKey in props
            && var f := Fetch(h.remotes, props[RemoteKey], props[FilePathKey], Some(HeadToken));
               && f.Success?
               && local !in h.faults.lockedFiles
               && PullEntrySpec(h, d, local).0
                  == Disk(d.files[local := f.value.content],
                          d.configs[config := SetProp(d.configs[config], local, ShaKey, f.value.sha)])
    ensures var r := PullEntrySpec(h, d, local);
      ConfigPath(h.start, h.tree).Some? && ConfigPath(h.start, h.tree).value in d.configs ==>
        var props := Lookup(d.configs[ConfigPath(h.start, h.tree).value], local);
        props.Some? && RemoteKey in props.value && FilePathKey in props.value ==>
          var f := Fetch(h.remotes, props.value[RemoteKey], props.value[FilePathKey], Some(HeadToken));
          && (h.faults.tempCreateFails ==> r == (d, Abort))
          && (!h.faults.tempCreateFails && f.Failure? ==> r == (d, Failed(f.error)))
          && (!h.faults.tempCreateFails && f.Success? && local in h.faults.lockedFiles ==>
                r == (d, Failed(CopyFailed(props.value[FilePathKey]))))
          && (!h.faults.tempCreateFails && f.Success? && local !in h.faults.lockedFiles ==>
                var copied := d.(files := d.files[local := f.value.content]);
                var config := ConfigPath(h.start, h.tree).value;
                var written := copied.(configs := d.configs[config :=
                                 SetProp(d.configs[config], local, ShaKey, f.value.sha)]);
                && (h.faults.configReadOnly ==> r == (copied, Failed(WriteFailed)))
                && (!h.faults.configReadOnly && h.faults.tempCloseFails ==> r == (written, Abort))
                && (!h.faults.configReadOnly && !h.faults.tempCloseFails ==> r == (written, Done)))
  {
  }

  /**
   * The loop of `pull` over the section names it loaded: the general section
   * is skipped, and the first entry that does not end in `Done` ends the loop
   * with its outcome.  Entries pulled before it stay pulled.
   */
  function PullEach(h: Host, d: Disk, names: seq<Option<string>>): (Disk, Outcome)
    decreases |names|
  {
    if names == [] then (d, Done)
    else if names[0].None? then PullEach(h, d, names[1..])
    else
      var step := PullEntrySpec(h, d, names[0].value);
      if step.1 != Done then step
      else PullEach(h, step.0, names[1..])
  }

  /** The pull loop changes no configuration but the `sha` values of its sections. */
  lemma {:induction false} PullEachTouchesOnlySha(h: Host, d: Disk, names: seq<Option<string>>)
    ensures PullEach(h, d, names).0.configs.Keys == d.configs.Keys
    ensures forall p :: p in d.configs ==> SameExceptSha(d.configs[p], PullEach(h, d, names).0.configs[p])
    decreases |names|
  {
    if names != [] {
      var step := if names[0].None? then (d, Done) else PullEntrySpec(h, d, names[0].value);
      if names[0].Some? {
        PullEntryFrame(h, d, names[0].value);
      }
      if step.1 == Done {
        PullEachTouchesOnlySha(h, step.0, names[1..]);
        forall p | p in d.configs
          ensures SameExceptSha(d.configs[p], PullEach(h, d, names).0.configs[p])
        {
          SameExceptShaTransitive(d.configs[p], step.0.configs[p], PullEach(h, d, names).0.configs[p]);
        }
      }
    }
  }

  /**
   * `pull`, as written: with a path, that entry is pulled first, and then --
   * success or not of the rest notwithstanding -- every entry of the
   * configuration is pulled, that one included.
   */
  function PullSpec(h: Host, d: Disk, local: Option<string>): (Disk, Outcome)
  {
    var first := if local.Some? then PullEntrySpec(h, d, local.value) else (d, Done);
    if first.1 != Done then first
    else match ConfigPath(h.start, h.tree)
      case None => (first.0, Failed(NoRepository))
      case Some(config) => PullEach(h, first.0, Names(LoadOrFresh(first.0, config)))
  }

  /**
   * `pull` as its command line describes it: with a path, only that entry
   * is pulled; without one, every entry.
   */
  function PullIntended(h: Host, d: Disk, local: Option<string>): (Disk, Outcome)
  {
    match local
    case Some(p) => PullEntrySpec(h, d, p)
    case None => PullSpec(h, d, None)
  }

  /** `pull` changes no configuration but the `sha` values of its sections. */
  lemma PullTouchesOnlySha(h: Host, d: Disk, local: Option<string>)
    ensures PullSpec(h, d, local).0.configs.Keys == d.configs.Keys
    ensures forall p :: p in d.configs ==> SameExceptSha(d.configs[p], PullSpec(h, d, local).0.configs[p])
  {
    var first := if local.Some? then PullEntrySpec(h, d, local.value) else (d, Done);
    if local.Some? {
      PullEntryFrame(h, d, local.value);
    }
    if first.1 == Done && ConfigPath(h.start, h.tree).Some? {
      var names := Names(LoadOrFresh(first.0, ConfigPath(h.start, h.tree).value));
      PullEachTouchesOnlySha(h, first.0, names);
      forall p | p in d.configs
        ensures SameExceptSha(d.configs[p], PullSpec(h, d, local).0.configs[p])
      {
        SameExceptShaTransitive(d.configs[p], first.0.configs[p], PullSpec(h, d, local).0.configs[p]);
      }
    }
  }

  /** The host's file system and configuration, updated in place by the operations. */
  class Workspace {
    const host: Host
    var files: map<string, Bytes>
    var configs: map<Path, Registry>

    function State(): Disk
      reads this
    {
      Disk(files, configs)
    }

    constructor (host: Host, files: map<string, Bytes>, configs: map<Path, Registry>)
      ensures this.host == host && State() == Disk(files, configs)
    {
      this.host := host;
      this.files := files;
      this.configs := configs;
    }

    /** `write_to_file` of the configuration. */
    method WriteConfig(config: Path, reg: Registry) returns (outcome: Outcome)
      modifies this`configs
      ensures (State(), outcome) == Save(host, old(State()), config, reg)
    {
      if host.faults.configReadOnly {
        return Failed(WriteFailed);
      }
      configs := configs[config := reg];
      return Done;
    }

    /** `get_file_from_remote`: clone, select the revision, copy the file to `local`. */
    method GetFileFromRemote(uri: string, remotePath: string, local: string, token: Option<string>)
      returns (sha: Result<string, Error>)
      modifies this`files
      ensures (State(), sha) == FetchInto(host, old(State()), uri, remotePath, local, token)
    {
      if uri !in host.remotes {
        return Failure(CloneFailed(uri));
      }
      var selected := SelectRevision(host.remotes[uri], token);
      if selected.Failure? {
        return Failure(selected.error);
      }
      var tree := selected.value.tree;
      if remotePath !in tree || local in host.faults.lockedFiles {
        return Failure(CopyFailed(remotePath));
      }
      files := files[local := tree[remotePath]];
      return Success(selected.value.sha);
    }

    /** `add_entry` */
    method AddEntry(uri: string, remotePath: string, token: Option<string>, local: string) returns (outcome: Outcome)
      modifies this
      ensures (State(), outcome) == AddSpec(host, old(State()), uri, remotePath, token, local)
    {
      if local in files {
        return Failed(AlreadyExists(local));
      }
      var config := CurrentRepoConfig(host.start, host.tree);
      if config.None? {
        return Failed(NoRepository);
      }
      var ini := if config.value in configs then configs[config.value] else Fresh;
      if IsTracked(ini, local) {
        return Failed(AlreadyTracked(local));
      }
      if host.faults.tempCreateFails {
        return Abort;
      }
      var sha := GetFileFromRemote(uri, remotePath, local, token);
      if sha.Failure? {
        return Failed(sha.error);
      }
      if host.faults.tempCloseFails {
        return Abort;
      }
      ini := SetProp(ini, local, RemoteKey, uri);
      ini := SetProp(ini, local, FilePathKey, remotePath);
      ini := SetProp(ini, local, ShaKey, sha.value);
      outcome := WriteConfig(config.value, ini);
    }

    /** `remove_entry` */
    method RemoveEntry(local: string) returns (outcome: Outcome)
      modifies this
      ensures (State(), outcome) == RemoveSpec(host, old(State()), local)
    {
      var config := CurrentRepoConfig(host.start, host.tree);
      if config.None? {
        return Failed(NoRepository);
      }
      if config.value !in configs {
        return Failed(ConfigUnreadable);
      }
      var ini := Delete(configs[config.value], local);
      if ini.None? {
        return Failed(NotTracked(local));
      }
      if local in files {
        if local in host.faults.lockedFiles {
          return Failed(RemoveFailed(local));
        }
        files := files - {local};
      } else {
        assert files - {local} == files;
      }
      outcome := WriteConfig(config.value, ini.value);
    }

    /** `pull_entry` */
    method PullEntry(local: string) returns (outcome: Outcome)
      modifies this
      ensures (State(), outcome) == PullEntrySpec(host, old(State()), local)
    {
      var config := CurrentRepoConfig(host.start, host.tree);
      if config.None? {
        return Failed(NoRepository);
      }
      if config.value !in configs {
        return Failed(ConfigUnreadable);
      }
      var ini := configs[config.value];
      var section := Lookup(ini, local);
      if section.None? {
        return Failed(EntryMissing(local));
      }
      if RemoteKey !in section.value {
        return Failed(RemoteKeyMissing(local));
      }
      if FilePathKey !in section.value {
        return Failed(FilePathKeyMissing(local));
      }
      if host.faults.tempCreateFails {
        return Abort;
      }
      var sha := GetFileFromRemote(section.value[RemoteKey], section.value[FilePathKey], local, Some(HeadToken));
      if sha.Failure? {
        return Failed(sha.error);
      }
      ini := SetProp(ini, local, ShaKey, sha.value);
      outcome := WriteConfig(config.value, ini);
      if outcome != Done {
        return;
      }
      if host.faults.tempCloseFails {
        return Abort;
      }
    }

    /** `pull` */
    method Pull(local: Option<string>) returns (outcome: Outcome)
      modifies this
      ensures (State(), outcome) == PullSpec(host, old(State()), local)
    {
      if local.Some? {
        outcome := PullEntry(local.value);
        if outcome != Done {
          return;
        }
      }
      var config := CurrentRepoConfig(host.start, host.tree);
      if config.None? {
        return Failed(NoRepository);
      }
      var ini := if config.value in configs then configs[config.value] else Fresh;
      var names := Names(ini);
      ghost var loaded := State();
      for i := 0 to |names|
        invariant PullEach(host, loaded, names) == PullEach(host, State(), names[i..])
      {
        assert names[i..][0] == names[i] && names[i..][1..] == names[i + 1..];
        if names[i].Some? {
          outcome := PullEntry(names[i].value);
          if outcome != Done {
            return;
          }
        }
      }
      return Done;
    }

    /** `pull` as its command line describes it: one entry when a path is given, all otherwise. */
    method PullDocumented(local: Option<string>) returns (outcome: Outcome)
      modifies this
      ensures (State(), outcome) == PullIntended(host, old(State()), local)
    {
      if local.Some? {
        outcome := PullEntry(local.value);
      } else {
        outcome := Pull(None);
      }
    }
  }
}

=== FILE: entry_properties.dfy ===
/**
 * Properties of the operations taken together: what a sequence of calls
 * leaves behind, and the registry invariant every operation keeps.
 */
module EntryProperties {
  import opened Wrappers
  import opened Errors
  import opened RepoLocator
  import opened ConfigStore
  import opened RemoteFetcher
  import opened EntryManager

  /** Every configuration on disk tracks each local path at most once. */
  ghost predicate RegistriesUnique(d: Disk) {
    forall p :: p in d.configs ==> UniqueNames(d.configs[p])
  }

  /**
   * A successful `add` pins the requested revision: an explicit token is
   * recorded exactly as given, no token or "HEAD" records the head's id.
   */
  lemma AddPinsRevision(h: Host, d: Disk, uri: string, remotePath: string, token: Option<string>, local: string)
    requires AddSpec(h, d, uri, remotePath, token, local).1 == Done
    ensures var d' := AddSpec(h, d, uri, remotePath, token, local).0;
      && ConfigPath(h.start, h.tree).Some?
      && var config := ConfigPath(h.start, h.tree).value;
         && config in d'.configs
         && Lookup(d'.configs[config], local).Some?
         && var props := Lookup(d'.configs[config], local).value;
            && ShaKey in props
            && props == map[RemoteKey := uri, FilePathKey := remotePath, ShaKey := props[ShaKey]]
            && (token.Some? && !IsHeadToken(token.value) ==> props[ShaKey] == token.value)
            && (token.None? || IsHeadToken(token.value) ==>
                  uri in h.remotes && h.remotes[uri].head == Some(props[ShaKey]))
  {
    AddContract(h, d, uri, remotePath, token, local);
    var config := ConfigPath(h.start, h.tree).value;
    var reg := LoadOrFresh(d, config);
    var f := Fetch(h.remotes, uri, remotePath, token).value;
    Track(reg, local, uri, remotePath, f.sha);
    LookupAppended(reg, Entry(local, uri, remotePath, f.sha), local);
  }

  /** Adding the same local path again is refused and changes nothing. */
  lemma SecondAddRefused(h: Host, d: Disk, uri: string, remotePath: string, token: Option<string>, local: string,
                         uri': string, remotePath': string, token': Option<string>)
    requires AddSpec(h, d, uri, remotePath, token, local).1 == Done
    ensures var d' := AddSpec(h, d, uri, remotePath, token, local).0;
      AddSpec(h, d', uri', remotePath', token', local) == (d', Failed(AlreadyExists(local)))
  {
    AddContract(h, d, uri, remotePath, token, local);
  }

  /** Removing the entry last appended to a registry gives back the registry it was appended to. */
  lemma RemoveAppended(h: Host, files: map<string, Bytes>, configs: map<Path, Registry>, config: Path,
                       reg: Registry, e: Section, local: string)
    requires ConfigPath(h.start, h.tree) == Some(config)
    requires !IsTracked(reg, local) && e.name == Some(local)
    requires local !in h.faults.lockedFiles && !h.faults.configReadOnly
    ensures RemoveSpec(h, Disk(files, configs[config := reg + [e]]), local)
         == (Disk(files - {local}, configs[config := reg]), Done)
  {
    var d := Disk(files, configs[config := reg + [e]]);
    WithoutAppended(reg, e, local);
    assert Delete(d.configs[config], local) == Some(reg);
    var removed := d.(files := files - {local});
    assert RemoveSpec(h, d, local) == Save(h, removed, config, reg);
    var written := configs[config := reg + [e]][config := reg];
    assert written == configs[config := reg] by {
      forall p | p in written ensures written[p] == configs[config := reg][p] {}
    }
  }

  /**
   * `remove` undoes a successful `add`: the file is gone again and the
   * registry is the one `add` started from (an unloadable one now written
   * out as empty).
   */
  lemma AddThenRemoveRestores(h: Host, d: Disk, uri: string, remotePath: string, token: Option<string>, local: string)
    requires AddSpec(h, d, uri, remotePath, token, local).1 == Done
    ensures var d' := AddSpec(h, d, uri, remotePath, token, local).0;
      var config := ConfigPath(h.start, h.tree).value;
      && RemoveSpec(h, d', local) == (Disk(d.files, d.configs[config := LoadOrFresh(d, config)]), Done)
      && (config in d.configs ==> RemoveSpec(h, d', local) == (d, Done))
  {
    AddContract(h, d, uri, remotePath, token, local);
    var config := ConfigPath(h.start, h.tree).value;
    var reg := LoadOrFresh(d, config);
    var f := Fetch(h.remotes, uri, remotePath, token).value;
    var files := d.files[local := f.content];
    RemoveAppended(h, files, d.configs, config, reg, Entry(local, uri, remotePath, f.sha), local);
    assert files - {local} == d.files;
    if config in d.configs {
      assert d.configs[config := reg] == d.configs;
    }
  }

  /**
   * A configuration that does not load: `pull` with a path refuses it through
   * `pull_entry`, while `pull` without one reads it as the fresh registry,
   * whose only section is the general one, and pulls nothing.
   */
  lemma PullUnreadableConfig(h: Host, d: Disk, local: string)
    requires ConfigPath(h.start, h.tree).Some? && ConfigPath(h.start, h.tree).value !in d.configs
    ensures PullSpec(h, d, Some(local)) == (d, Failed(ConfigUnreadable))
    ensures PullSpec(h, d, None) == (d, Done)
  {
    PullEntryContract(h, d, local);
    var names := Names(LoadOrFresh(d, ConfigPath(h.start, h.tree).value));
    assert names == [None];
    assert PullEach(h, d, names) == PullEach(h, d, names[1..]);
  }

  /** After a successful `remove`, pulling that path fails: it is no longer tracked. */
  lemma RemoveThenPullFails(h: Host, d: Disk, local: string)
    requires RemoveSpec(h, d, local).1 == Done
    ensures var d' := RemoveSpec(h, d, local).0;
      PullSpec(h, d', Some(local)) == (d', Failed(EntryMissing(local)))
  {
    RemoveContract(h, d, local);
    WithoutLookup(d.configs[ConfigPath(h.start, h.tree).value], local);
    PullEntryContract(h, RemoveSpec(h, d, local).0, local);
  }

  /** `add` keeps every registry free of duplicate entries. */
  lemma AddKeepsUnique(h: Host, d: Disk, uri: string, remotePath: string, token: Option<string>, local: string)
    requires RegistriesUnique(d)
    ensures RegistriesUnique(AddSpec(h, d, uri, remotePath, token, local).0)
  {
    AddContract(h, d, uri, remotePath, token, local);
    var r := AddSpec(h, d, uri, remotePath, token, local);
    if r.1 == Done {
      var config := ConfigPath(h.start, h.tree).value;
      var f := Fetch(h.remotes, uri, remotePath, token).value;
      AppendKeepsUnique(LoadOrFresh(d, config), Entry(local, uri, remotePath, f.sha), local);
    }
  }

  /** `remove` keeps every registry free of duplicate entries. */
  lemma RemoveKeepsUnique(h: Host, d: Disk, local: string)
    requires RegistriesUnique(d)
    ensures RegistriesUnique(RemoveSpec(h, d, local).0)
  {
    RemoveContract(h, d, local);
    if RemoveSpec(h, d, local).1 == Done {
      var config := ConfigPath(h.start, h.tree).value;
      WithoutKeepsUnique(d.configs[config], local);
    }
  }

  /** `pull` keeps every registry free of duplicate entries. */
  lemma PullKeepsUnique(h: Host, d: Disk, local: Option<string>)
    requires RegistriesUnique(d)
    ensures RegistriesUnique(PullSpec(h, d, local).0)
  {
    var d' := PullSpec(h, d, local).0;
    PullTouchesOnlySha(h, d, local);
    forall p | p in d'.configs
      ensures UniqueNames(d'.configs[p])
    {
      SameExceptShaKeepsNames(d.configs[p], d'.configs[p]);
    }
  }

  /**
   * The entry `local` of the configuration at `config` was pulled: its
   * `sha` is the id of its remote's head commit and its local file holds
   * the remote file's content at that commit.
   */
  ghost predicate PinnedToHead(h: Host, d: Disk, config: Path, local: string) {
    && config in d.configs
    && Lookup(d.configs[config], local).Some?
    && var props := Lookup(d.configs[config], local).value;
       && RemoteKey in props && FilePathKey in props && ShaKey in props
       && props[RemoteKey] in h.remotes
       && h.remotes[props[RemoteKey]].head.Some?
       && props[ShaKey] == h.remotes[props[RemoteKey]].head.value
       && var f := Fetch(h.remotes, props[RemoteKey], props[FilePathKey], Some(HeadToken));
          && f.Success?
          && local in d.files && d.files[local] == f.value.content
  }

  /** A successful `pull_entry` leaves its entry pinned to the head. */
  lemma PullEntryPins(h: Host, d: Disk, local: string)
    requires PullEntrySpec(h, d, local).1 == Done
    ensures PinnedToHead(h, PullEntrySpec(h, d, local).0, ConfigPath(h.start, h.tree).value, local)
  {
    PullEntryContract(h, d, local);
    var config := ConfigPath(h.start, h.tree).value;
    var props := Lookup(d.configs[config], local).value;
    var f := Fetch(h.remotes, props[RemoteKey], props[FilePathKey], Some(HeadToken));
    SetPropLookup(d.configs[config], local, ShaKey, f.value.sha);
    HeadSpellings();
  }

  /** `pull_entry` of one path, however it ends, leaves another pinned entry pinned. */
  lemma PullEntryKeepsPinned(h: Host, d: Disk, local: string, other: string)
    requires ConfigPath(h.start, h.tree).Some?
    requires PinnedToHead(h, d, ConfigPath(h.start, h.tree).value, other)
    requires other != local
    ensures PinnedToHead(h, PullEntrySpec(h, d, local).0, ConfigPath(h.start, h.tree).value, other)
  {
    PullEntryFrame(h, d, local);
    var d' := PullEntrySpec(h, d, local).0;
    assert other in d'.files - {local};
  }

  /** A pull loop that succeeds leaves every pinned entry pinned. */
  lemma {:induction false} PullEachKeepsPinned(h: Host, d: Disk, names: seq<Option<string>>, other: string)
    requires ConfigPath(h.start, h.tree).Some?
    requires PinnedToHead(h, d, ConfigPath(h.start, h.tree).value, other)
    requires PullEach(h, d, names).1 == Done
    ensures PinnedToHead(h, PullEach(h, d, names).0, ConfigPath(h.start, h.tree).value, other)
    decreases |names|
  {
    if names != [] {
      if names[0].None? {
        PullEachKeepsPinned(h, d, names[1..], other);
      } else {
        var step := PullEntrySpec(h, d, names[0].value);
        if names[0].value == other {
          PullEntryPins(h, d, other);
        } else {
          PullEntryKeepsPinned(h, d, names[0].value, other);
        }
        PullEachKeepsPinned(h, step.0, names[1..], other);
      }
    }
  }

  /** A pull loop that succeeds leaves every entry it visited pinned to its head. */
  lemma {:induction false} PullEachPins(h: Host, d: Disk, names: seq<Option<string>>, local: string)
    requires ConfigPath(h.start, h.tree).Some?
    requires Some(local) in names
    requires PullEach(h, d, names).1 == Done
    ensures PinnedToHead(h, PullEach(h, d, names).0, ConfigPath(h.start, h.tree).value, local)
    decreases |names|
  {
    if names[0] != Some(local) {
      assert Some(local) in names[1..];
      if names[0].None? {
        PullEachPins(h, d, names[1..], local);
      } else {
        PullEachPins(h, PullEntrySpec(h, d, names[0].value).0, names[1..], local);
      }
    } else {
      PullEntryPins(h, d, local);
      PullEachKeepsPinned(h, PullEntrySpec(h, d, local).0, names[1..], local);
    }
  }

  /**
   * A successful `pull` of everything refreshes every tracked entry to its
   * remote's current head: it never replays a previously recorded `sha`.
   */
  lemma PullAllPinsHead(h: Host, d: Disk, local: string)
    requires ConfigPath(h.start, h.tree).Some?
    requires IsTracked(LoadOrFresh(d, ConfigPath(h.start, h.tree).value), local)
    requires PullSpec(h, d, None).1 == Done
    ensures PinnedToHead(h, PullSpec(h, d, None).0, ConfigPath(h.start, h.tree).value, local)
  {
    var config := ConfigPath(h.start, h.tree).value;
    PullEachPins(h, d, Names(LoadOrFresh(d, config)), local);
  }

  /**
   * A `pull` of one path that succeeds leaves that entry pinned to its
   * remote's current head, whatever revision `add` pinned it to.
   */
  lemma PullOnePinsHead(h: Host, d: Disk, local: string)
    requires PullSpec(h, d, Some(local)).1 == Done
    ensures PinnedToHead(h, PullSpec(h, d, Some(local)).0, ConfigPath(h.start, h.tree).value, local)
  {
    var first := PullEntrySpec(h, d, local);
    PullEntryPins(h, d, local);
    var config := ConfigPath(h.start, h.tree).value;
    PullEachKeepsPinned(h, first.0, Names(LoadOrFresh(first.0, config)), local);
  }

  /**
   * A pull loop that fails stopped at its first failing entry: the entries
   * before it all ended in `Done`, and the result is exactly the state and
   * outcome of that entry's pull after them; nothing is rolled back.
   */
  lemma {:induction false} PullStopsAtFirstFailure(h: Host, d: Disk, names: seq<Option<string>>) returns (k: nat)
    requires PullEach(h, d, names).1 != Done
    ensures k < |names| && names[k].Some?
    ensures PullEach(h, d, names[..k]).1 == Done
    ensures PullEntrySpec(h, PullEach(h, d, names[..k]).0, names[k].value) == PullEach(h, d, names)
    decreases |names|
  {
    assert names[..0] == [];
    if names[0].None? {
      var j := PullStopsAtFirstFailure(h, d, names[1..]);
      k := j + 1;
      assert names[..k][0] == names[0] && names[..k][1..] == names[1..][..j];
    } else {
      var step := PullEntrySpec(h, d, names[0].value);
      if step.1 != Done {
        k := 0;
      } else {
        var j := PullStopsAtFirstFailure(h, step.0, names[1..]);
        k := j + 1;
        assert names[..k][0] == names[0] && names[..k][1..] == names[1..][..j];
      }
    }
  }

  /**
   * When a pull loop fails, every entry pulled before the failing one stays
   * pinned to its head: earlier updates persist.
   */
  lemma PullFailureKeepsEarlier(h: Host, d: Disk, names: seq<Option<string>>, k: nat, earlier: string)
    requires ConfigPath(h.start, h.tree).Some?
    requires k < |names| && names[k].Some?
    requires PullEach(h, d, names[..k]).1 == Done
    requires PullEntrySpec(h, PullEach(h, d, names[..k]).0, names[k].value) == PullEach(h, d, names)
    requires Some(earlier) in names[..k] && earlier != names[k].value
    ensures PinnedToHead(h, PullEach(h, d, names).0, ConfigPath(h.start, h.tree).value, earlier)
  {
    PullEachPins(h, d, names[..k], earlier);
    PullEntryKeepsPinned(h, PullEach(h, d, names[..k]).0, names[k].value, earlier);
  }

  /**
   * `pull` with a path does not stop after that path: in a repository whose
   * configuration tracks `a` from a reachable remote and also holds a
   * section `b` without a remote, pulling just `a` ends in `b`'s error,
   * where pulling only `a` succeeds.
   */
  lemma PullOneFallsThrough()
    ensures var sha := "0000000000000000000000000000000000000000";
      var h := Host([], {[GitDir]}, map["u" := Repo(Some(sha), map[sha := map["f" := [1]]])],
                    Faults({}, false, false, false));
      var d := Disk(map[], map[[ConfigFileName] := [Entry("a", "u", "f", sha), Section(Some("b"), map[])]]);
      && PullSpec(h, d, Some("a")).1 == Failed(RemoteKeyMissing("b"))
      && PullIntended(h, d, Some("a")).1 == Done
  {
    var sha := "0000000000000000000000000000000000000000";
    var h := Host([], {[GitDir]}, map["u" := Repo(Some(sha), map[sha := map["f" := [1]]])],
                  Faults({}, false, false, false));
    var b := Section(Some("b"), map[]);
    var reg := [Entry("a", "u", "f", sha), b];
    var d := Disk(map[], map[[ConfigFileName] := reg]);
    assert HasGitDir(h.tree, []) by {
      assert [] + [GitDir] == [GitDir];
    }
    assert RepoRoot([], h.tree) == Some([]);
    assert ConfigPath(h.start, h.tree) == Some([] + [ConfigFileName]);
    assert [] + [ConfigFileName] == [ConfigFileName];
    HeadSpellings();
    assert Fetch(h.remotes, "u", "f", Some(HeadToken)) == Success(Fetched(sha, [1]));
    assert reg[1..] == [b];
    assert Lookup(reg, "a") == Some(Entry("a", "u", "f", sha).props);
    assert Lookup(reg, "b") == Some(map[]);
    var props := Entry("a", "u", "f", sha).props;
    assert RemoteKey != FilePathKey && RemoteKey != ShaKey && FilePathKey != ShaKey;
    assert props[RemoteKey] == "u" && props[FilePathKey] == "f";
    assert FetchInto(h, d, "u", "f", "a", Some(HeadToken)) == (Disk(map["a" := [1]], d.configs), Success(sha));
    var first := PullEntrySpec(h, d, "a");
    var reg' := SetProp(reg, "a", ShaKey, sha);
    assert first == (Disk(map["a" := [1]], d.configs[[ConfigFileName] := reg']), Done);
    SetPropLookup(reg, "a", ShaKey, sha);
    SetPropNames(reg, "a", ShaKey, sha);
    assert Names(reg') == [Some("a"), Some("b")];
    var second := PullEntrySpec(h, first.0, "a");
    assert second.1 == Done;
    var reg'' := SetProp(reg', "a", ShaKey, sha);
    assert second.0.configs[[ConfigFileName]] == reg'';
    SetPropLookup(reg', "a", ShaKey, sha);
    assert PullEntrySpec(h, second.0, "b") == (second.0, Failed(RemoteKeyMissing("b")));
    var names := Names(LoadOrFresh(first.0, [ConfigFileName]));
    assert names == [Some("a"), Some("b")] && names[1..] == [Some("b")];
    assert PullEach(h, second.0, names[1..]) == (second.0, Failed(RemoteKeyMissing("b")));
    assert PullEach(h, first.0, names) == (second.0, Failed(RemoteKeyMissing("b")));
  }

  /**
   * The intended `pull` of one path changes nothing but that entry: every
   * other working file and every other entry stays as it was, and on success
   * the entry is pinned to its remote's head.
   */
  lemma PullIntendedTouchesOnlyIt(h: Host, d: Disk, local: string)
    ensures var d' := PullIntended(h, d, Some(local)).0;
      && d'.files - {local} == d.files - {local}
      && d'.configs.Keys == d.configs.Keys
      && forall p, n :: p in d.configs && n != local ==> Lookup(d'.configs[p], n) == Lookup(d.configs[p], n)
    ensures PullIntended(h, d, Some(local)).1 == Done ==>
      PinnedToHead(h, PullIntended(h, d, Some(local)).0, ConfigPath(h.start, h.tree).value, local)
  {
    PullEntryFrame(h, d, local);
    if PullEntrySpec(h, d, local).1 == Done {
      PullEntryPins(h, d, local);
    }
  }
}

=== FILE: errors.dfy ===
/**
 * The ways an operation of the tracker ends.  Each error message of the
 * source becomes one variant; the message text itself is not modelled.
 */
module Errors {

  datatype Error =
    | NoRepository                   // no ancestor directory holds `.git`
    | AlreadyExists(path: string)    // add: the local file is already on disk
    | AlreadyTracked(path: string)   // add: a section for the local path exists
    | NotTracked(path: string)       // remove: no section for the local path
    | ConfigUnreadable               // remove, pull: the configuration did not load
    | EntryMissing(path: string)     // pull: no section for the local path
    | RemoteKeyMissing(path: string) // pull: the section has no `remote`
    | FilePathKeyMissing(path: string) // pull: the section has no `file_path`
    | CloneFailed(uri: string)       // the remote could not be cloned
    | InvalidObjectId(token: string) // the revision token is not an object id
    | UnknownCommit(token: string)   // the object id names no commit
    | HeadUnresolved                 // the clone's head does not lead to a commit
    | CopyFailed(path: string)       // copying the remote file at `path` to the local path failed
    | RemoveFailed(path: string)     // remove: deleting the local file failed
    | WriteFailed                    // writing the configuration file failed

  /**
   * `Failed` is an error returned to the caller; `Abort` is one of the
   * `panic!`s around the temporary clone directory, which end the process.
   */
  datatype Outcome = Done | Failed(error: Error) | Abort
}

=== FILE: remote_fetcher.dfy ===
/**
 * Retrieving one file of a remote repository at a revision.  Cloning and
 * checking out are replaced by an abstract record per remote: the commit
 * the clone's head points at and the file tree of every commit.  Object
 * ids are parsed as the git library does: one to forty hexadecimal
 * digits, read case-insensitively and padded with zeros.
 */
module RemoteFetcher {
  import opened Wrappers
  import opened Errors

  type Bytes = seq<bv8>

  /** A commit's files: path inside the repository to content. */
  type Tree = map<string, Bytes>

  /**
   * What a clone of a remote shows: `head` is the id the clone's head
   * refers to (`None` when it has none), `commits` the commits by id.
   */
  datatype Repo = Repo(head: Option<string>, commits: map<string, Tree>)

  const OidHexLength := 40
  const HeadToken := "HEAD"

  predicate IsHexDigit(c: char) {
    '0' <= c <= '9' || 'a' <= c <= 'f' || 'A' <= c <= 'F'
  }

  predicate IsLowerHexDigit(c: char) {
    '0' <= c <= '9' || 'a' <= c <= 'f'
  }

  /** The text form of an object id: forty lower-case hexadecimal digits. */
  predicate IsCanonicalOid(s: string) {
    |s| == OidHexLength && forall i :: 0 <= i < |s| ==> IsLowerHexDigit(s[i])
  }

  /** Commit ids and the head are in text form. */
  predicate WellFormed(repo: Repo) {
    && (forall id :: id in repo.commits ==> IsCanonicalOid(id))
    && (repo.head.Some? ==> IsCanonicalOid(repo.head.value))
  }

  function LowerChar(c: char): char {
    if 'A' <= c <= 'Z' then (c as int + 32) as char else c
  }

  function UpperChar(c: char): char {
    if 'a' <= c <= 'z' then (c as int - 32) as char else c
  }

  function ToLower(s: string): string
  {
    seq(|s|, i requires 0 <= i < |s| => LowerChar(s[i]))
  }

  function ToUpper(s: string): string
  {
    seq(|s|, i requires 0 <= i < |s| => UpperChar(s[i]))
  }

  /** The token asks for the clone's head: it reads "HEAD" in any letter case. */
  predicate IsHeadToken(token: string) {
    ToUpper(token) == HeadToken
  }

  function Zeros(n: nat): string
  {
    seq(n, i => '0')
  }

  /**
   * Parsing a revision token as an object id.  A token of one to forty
   * hexadecimal digits names the id it spells in lower case, padded with
   * zeros to forty digits; an id in text form names itself.
   */
  function ParseOid(token: string): (id: Option<string>)
    ensures id.Some? <==> 0 < |token| <= OidHexLength && forall i :: 0 <= i < |token| ==> IsHexDigit(token[i])
    ensures id.Some? ==> IsCanonicalOid(id.value) && id.value[..|token|] == ToLower(token)
    ensures id.Some? ==> forall i :: |token| <= i < OidHexLength ==> id.value[i] == '0'
    ensures IsCanonicalOid(token) ==> id == Some(token)
  {
    if 0 < |token| <= OidHexLength && forall i :: 0 <= i < |token| ==> IsHexDigit(token[i]) then
      var id := ToLower(token) + Zeros(OidHexLength - |token|);
      assert id[..|token|] == ToLower(token);
      assert IsCanonicalOid(token) ==> forall i :: 0 <= i < |token| ==> LowerChar(token[i]) == token[i];
      assert IsCanonicalOid(token) ==> ToLower(token) == token && Zeros(OidHexLength - |token|) == [];
      assert IsCanonicalOid(token) ==> id == token;
      Some(id)
    else
      None
  }

  /** The revision a fetch checks out: its id as reported back, and its files. */
  datatype Checkout = Checkout(sha: string, tree: Tree)

  /**
   * The choice of revision.  A token that is not a spelling of "HEAD"
   * must parse as an object id naming a commit, and is reported back
   * exactly as given; no token, or "HEAD", takes the head commit and
   * reports its id.
   */
  function SelectRevision(repo: Repo, token: Option<string>): (r: Result<Checkout, Error>)
    ensures token.Some? && !IsHeadToken(token.value) ==>
      var id := ParseOid(token.value);
      && (id.None? ==> r == Failure(InvalidObjectId(token.value)))
      && (id.Some? && id.value !in repo.commits ==> r == Failure(UnknownCommit(token.value)))
      && (r.Success? <==> id.Some? && id.value in repo.commits)
      && (r.Success? ==> r.value.sha == token.value && r.value.tree == repo.commits[id.value])
    ensures token.None? || IsHeadToken(token.value) ==>
      && (r.Success? <==> repo.head.Some? && repo.head.value in repo.commits)
      && (r.Success? ==> r.value.sha == repo.head.value && r.value.tree == repo.commits[repo.head.value])
      && (r.Failure? ==> r.error == HeadUnresolved)
  {
    if token.Some? && !IsHeadToken(token.value) then
      match ParseOid(token.value)
      case None => Failure(InvalidObjectId(token.value))
      case Some(id) =>
        if id in repo.commits then Success(Checkout(token.value, repo.commits[id]))
        else Failure(UnknownCommit(token.value))
    else
      match repo.head
      case None => Failure(HeadUnresolved)
      case Some(id) =>
        if id in repo.commits then Success(Checkout(id, repo.commits[id]))
        else Failure(HeadUnresolved)
  }

  /** The id reported for a fetched revision and the file's content there. */
  datatype Fetched = Fetched(sha: string, content: Bytes)

  /**
   * Clone `uri`, select the revision and read `remotePath` from its tree.
   * A remote that cannot be cloned and a path missing from the tree are
   * errors; otherwise the content is the file at the selected revision.
   */
  function Fetch(remotes: map<string, Repo>, uri: string, remotePath: string, token: Option<string>): (r: Result<Fetched, Error>)
    ensures uri !in remotes ==> r == Failure(CloneFailed(uri))
    ensures uri in remotes && SelectRevision(remotes[uri], token).Failure? ==>
      r == Failure(SelectRevision(remotes[uri], token).error)
    ensures r.Success? <==>
      uri in remotes && SelectRevision(remotes[uri], token).Success?
      && remotePath in SelectRevision(remotes[uri], token).value.tree
    ensures r.Success? ==>
      var c := SelectRevision(remotes[uri], token).value;
      r.value == Fetched(c.sha, c.tree[remotePath])
  {
    if uri !in remotes then Failure(CloneFailed(uri))
    else
      match SelectRevision(remotes[uri], token)
      case Failure(e) => Failure(e)
      case Success(c) =>
        if remotePath in c.tree then Success(Fetched(c.sha, c.tree[remotePath]))
        else Failure(CopyFailed(remotePath))
  }

  /** Upper-casing matches an upper-case letter exactly when lower-casing matches its lower-case form. */
  lemma UpperMatchesLower(c: char, lower: char)
    requires 'a' <= lower <= 'z'
    ensures UpperChar(c) == UpperChar(lower) <==> LowerChar(c) == lower
  {
  }

  /**
   * The head token is "HEAD" compared without regard to letter case: four
   * characters, each equal to the letter of "head" in either case.
   */
  lemma IsHeadTokenIgnoresCase(token: string)
    ensures IsHeadToken(token) <==>
      |token| == 4 && forall i :: 0 <= i < 4 ==> LowerChar(token[i]) == "head"[i]
  {
    if |token| == 4 {
      forall i | 0 <= i < 4
        ensures ToUpper(token)[i] == HeadToken[i] <==> LowerChar(token[i]) == "head"[i]
      {
        assert HeadToken[i] == UpperChar("head"[i]);
        UpperMatchesLower(token[i], "head"[i]);
      }
      if !IsHeadToken(token) {
        var i :| 0 <= i < 4 && ToUpper(token)[i] != HeadToken[i];
      }
    }
  }

  /** "HEAD" and its other spellings select the head. */
  lemma HeadSpellings()
    ensures IsHeadToken(HeadToken) && IsHeadToken("head") && IsHeadToken("Head")
  {
    IsHeadTokenIgnoresCase(HeadToken);
    IsHeadTokenIgnoresCase("head");
    IsHeadTokenIgnoresCase("Head");
  }

  /** An object id is never mistaken for the head token: 'H' is no hex digit. */
  lemma OidIsNotHeadToken(token: string)
    requires ParseOid(token).Some?
    ensures !IsHeadToken(token)
  {
    assert IsHexDigit(token[0]);
    assert ToUpper(token)[0] != HeadToken[0];
  }

  /**
   * The selected id is concrete and reproducible: it is never a spelling of
   * "HEAD", and selecting it again checks out the same files.
   */
  lemma SelectionIsReproducible(repo: Repo, token: Option<string>)
    requires WellFormed(repo)
    requires SelectRevision(repo, token).Success?
    ensures var c := SelectRevision(repo, token).value;
      !IsHeadToken(c.sha) && SelectRevision(repo, Some(c.sha)) == Success(c)
  {
    var c := SelectRevision(repo, token).value;
    if token.Some? && !IsHeadToken(token.value) {
      assert c.sha == token.value;
    } else {
      assert IsCanonicalOid(c.sha);
      assert ParseOid(c.sha) == Some(c.sha);
      OidIsNotHeadToken(c.sha);
    }
  }
}

=== FILE: repo_locator.dfy ===
/**
 * Finding the enclosing repository: the walk from a start directory up to
 * the first ancestor that holds `.git`, and the configuration file beside it.
 * The process's current directory is an explicit start path here, and the
 * file system is the set of paths that exist.
 */
module RepoLocator {
  import opened Wrappers

  /** An absolute path as its list of components; the root directory is `[]`. */
  type Path = seq<string>

  const GitDir := ".git"
  const ConfigFileName := ".git-file"

  /** `dir` holds a `.git` entry. */
  predicate HasGitDir(tree: set<Path>, dir: Path) {
    dir + [GitDir] in tree
  }

  /**
   * `root` is the nearest ancestor of `start` (`start` itself included)
   * that holds `.git`, or `None` when no ancestor up to the root does.
   */
  ghost predicate IsNearestRoot(start: Path, tree: set<Path>, root: Option<Path>) {
    match root
    case None => forall k :: 0 <= k <= |start| ==> !HasGitDir(tree, start[..k])
    case Some(dir) =>
      && dir <= start
      && HasGitDir(tree, dir)
      && forall k :: |dir| < k <= |start| ==> !HasGitDir(tree, start[..k])
  }

  /** The repository root reached from `start`, as a function of the file system. */
  function RepoRoot(start: Path, tree: set<Path>): (root: Option<Path>)
    ensures IsNearestRoot(start, tree, root)
    decreases |start|
  {
    if HasGitDir(tree, start) then Some(start)
    else if start == [] then None
    else
      var parent := start[..|start| - 1];
      var root := RepoRoot(parent, tree);
      assert forall k :: 0 <= k <= |parent| ==> parent[..k] == start[..k];
      assert start[..|start|] == start;
      root
  }

  /** There is only one nearest root: the walk's result is determined by the file system. */
  lemma NearestRootUnique(start: Path, tree: set<Path>, a: Option<Path>, b: Option<Path>)
    requires IsNearestRoot(start, tree, a) && IsNearestRoot(start, tree, b)
    ensures a == b
  {
    if a.Some? {
      assert start[..|a.value|] == a.value;
    }
    if b.Some? {
      assert start[..|b.value|] == b.value;
    }
  }

  /** The walk of the source: climb through parents until one holds `.git`. */
  method GetRepoRoot(start: Path, tree: set<Path>) returns (root: Option<Path>)
    ensures root == RepoRoot(start, tree)
  {
    var path := start;
    while !HasGitDir(tree, path)
      invariant RepoRoot(path, tree) == RepoRoot(start, tree)
      decreases |path|
    {
      if path == [] {
        return None;
      }
      path := path[..|path| - 1];
    }
    return Some(path);
  }

  /** Where the configuration lives: `.git-file` in the repository root. */
  function ConfigPath(start: Path, tree: set<Path>): Option<Path> {
    match RepoRoot(start, tree)
    case None => None
    case Some(root) => Some(root + [ConfigFileName])
  }

  /**
   * The configuration path is missing exactly when no ancestor holds `.git`,
   * and otherwise is `.git-file` in the nearest one.
   */
  lemma ConfigPathLocatesRoot(start: Path, tree: set<Path>)
    ensures var config := ConfigPath(start, tree);
      && (config.None? <==> forall k :: 0 <= k <= |start| ==> !HasGitDir(tree, start[..k]))
      && (config.Some? ==>
            && |config.value| > 0
            && config.value[|config.value| - 1] == ConfigFileName
            && IsNearestRoot(start, tree, Some(config.value[..|config.value| - 1])))
  {
    var root := RepoRoot(start, tree);
    if root.Some? {
      assert start[..|root.value|] == root.value;
      assert (root.value + [ConfigFileName])[..|root.value|] == root.value;
    }
  }

  /** The source's lookup of the configuration path, built on the walk. */
  method CurrentRepoConfig(start: Path, tree: set<Path>) returns (config: Option<Path>)
    ensures config == ConfigPath(start, tree)
  {
    var root := GetRepoRoot(start, tree);
    if root.None? {
      return None;
    }
    config := Some(root.value + [ConfigFileName]);
  }
}

=== FILE: wrappers.dfy ===
/** Option and Result, used throughout the model. */
module Wrappers {

  datatype Option<+T> = None | Some(value: T) {
    function GetOr(default: T): T {
      match this
      case Some(v) => v
      case None => default
    }
  }

  datatype Result<+R, +E> = Success(value: R) | Failure(error: E)
}
